=== FILE: README.md ===
# MyCV resume layout engine and credit ledger, modelled in Dafny

This project models the two pieces of the MyCV resume builder that carry real
logic.

1. **The resume layout pipeline** (`components/ResumeTemplates.tsx`). A resume
   document is an ordered list of sections: text, list, skills, or a `break`
   marker. The pipeline splits the list into printable pages at the break
   markers. It routes each page's sections into a sidebar (`left`) group and a
   main group. It looks up a table of typographic tokens for the chosen font
   size tier, renders each section, and assembles one A4 sheet per page. The
   identity header appears only on sheet 0. The branding watermark appears
   only on sheet 0 of a non-premium document. There are eight real layouts;
   template ids 9–20 are aliases of them, and any other id falls back to
   layout 1.
2. **The download-credit ledger**. `POST /api/user/deduct-credit` spends one
   credit. `POST /api/payment/verify` checks a payment signature and then
   grants a credit (plan `standard`) or a 30-day `pro` subscription (plan
   `premium`).

Everything is a pure function over immutable datatypes. JSX and CSS are
replaced by abstract records: a `Page` has an index, a font, a watermark flag
and an optional body. The body holds the identity header (sheet 0 only), the
style tokens and a layout. The layout is either two column groups of `Block`s
or Template6's caption rows. A `Block` is `Hidden` or a titled `Shown` value
whose body is rich text, a chip sequence or a sequence of item views.
Supabase becomes a `map<UserId, Profile>`. Database faults are parameters.
The HMAC is a function parameter `hmac: string -> string`. The date is an
integer day count.

Modules, one per file: `Options`, `Seqs` (filter, flatten, interleaving),
`Document` (the data model), `ThemeStyles`, `Pagination`, `ColumnRouting`,
`SectionRendering`, `Templates`, `Ledger`, `DeductCredit`, `PaymentVerify`
and `LedgerRuns`.

Two behaviours of the code are worth stating because they are easy to miss:

- The section header `<h3>` is emitted even for an empty title
  (components/ResumeTemplates.tsx:173-175), so a shown block always carries
  its title, which may be empty.
- Template6 emits a caption row for every section of the page, hidden ones
  included (components/ResumeTemplates.tsx:417-422); only the block beside
  the caption is blank (`Templates.LabelStripRows`).

## Model

| member | source | states |
|---|---|---|
| `ThemeStyles.GetThemeStyles` | components/ResumeTemplates.tsx:57-101 | the returned table is one of the three tables, and the tier can be read back from its name token: "small" and "large" select their own tables, every other string selects the medium table |
| `ThemeStyles.Tier` | components/ResumeTemplates.tsx:58-87 | every size string maps to one of small/medium/large; the three tier names map to themselves, and every other string maps to medium |
| `ThemeStyles.TablesDetermineTier` | components/ResumeTemplates.tsx:57-101 | two sizes get the same table only if they select the same tier, so the three tables are distinct |
| `ThemeStyles.UnknownTierIsMedium` | components/ResumeTemplates.tsx:87-100 | an unrecognised size gets exactly the medium table |
| `ThemeStyles.MissingTierIsMedium` | components/ResumeTemplates.tsx:229 | a missing or empty `fontSize` gets exactly the medium table |
| `ThemeStyles.ResolveTier` | components/ResumeTemplates.tsx:229 | `fontSize || 'medium'`: a present non-empty size is kept, a missing or empty size becomes "medium" |
| `ThemeStyles.NameTokensPerTier` | components/ResumeTemplates.tsx:61-89 | the name token is text-3xl, text-4xl and text-5xl for small, medium and large |
| `Pagination.Paginate` | components/ResumeTemplates.tsx:116 | there is always at least one page |
| `Pagination.SegmentsShape` | components/ResumeTemplates.tsx:108-115 | there is one more segment than there are breaks; no segment holds a break; the segments concatenate to the non-break sections in order |
| `Pagination.SegmentsSnocBreak` | components/ResumeTemplates.tsx:109-111 | a break pushes the current buffer as a page and starts an empty one |
| `Pagination.SegmentsSnocContent` | components/ResumeTemplates.tsx:112-114 | a non-break section is appended to the current buffer |
| `Pagination.UsePages` | components/ResumeTemplates.tsx:105-118 | the buffer-and-push loop, with its final conditional push, computes exactly `Paginate` |
| `Pagination.SegmentsOfBreakFree` | components/ResumeTemplates.tsx:108-116 | a list without breaks is one page holding the whole list |
| `Pagination.SegmentsAtBreak` | components/ResumeTemplates.tsx:108-115 | splitting distributes over a break: the segments before it, then the segments after it |
| `Pagination.LastSegmentIsTail` | components/ResumeTemplates.tsx:116 | the final buffer is exactly the suffix after the last break; if it is shorter than the input, a break precedes it |
| `Pagination.PagesHoldNoBreaks` | components/ResumeTemplates.tsx:109-114 | no page contains a break section |
| `Pagination.PaginatePreservesContent` | components/ResumeTemplates.tsx:108-116 | concatenating the pages gives the input with its breaks removed, in the same order |
| `Pagination.PageCount` | components/ResumeTemplates.tsx:108-116 | the page count is the break count, plus one when the tail after the last break is non-empty or there is no break |
| `Pagination.BoundaryCases` | components/ResumeTemplates.tsx:105-118 | [] gives [[]]; [A, break] gives [[A]]; [A, break, B] gives [[A],[B]]; [break] gives [[]]; [break, break] gives [[],[]] |
| `ColumnRouting.GetPageColumns` | components/ResumeTemplates.tsx:120-126 | `left` holds only left-column sections and `right` only the others; together they are an order-preserving interleaving of the page (same multiset, lengths add up); `full` is the page |
| `ColumnRouting.ColumnMembership` | components/ResumeTemplates.tsx:123-124 | a section is in `left` iff it is on the page with column left, and in `right` iff it is on the page with any other or no column |
| `ColumnRouting.NonLeftColumnsRouteAlike` | components/ResumeTemplates.tsx:121-124 | right, full and unset columns are routed identically to the main group |
| `SectionRendering.Displayed` | components/ResumeTemplates.tsx:143-148 | a rich-text field renders iff it is present and non-empty, and it renders unchanged |
| `SectionRendering.RenderItem` | components/ResumeTemplates.tsx:191-201 | date and description are shown iff present (non-empty), and then as stored; the subtitle is shown iff present and is coloured with the subtitle override when non-empty, else with the theme colour |
| `SectionRendering.RenderSection` | components/ResumeTemplates.tsx:162-206 | nothing iff the section is a break or explicitly hidden; otherwise the title and accent colour, one of the three token tables and the one whose tier the theme's size resolves to, and a body by kind: text content, the flattened tags as chips, or one view per list item at the same position |
| `SectionRendering.ListKeepsStoredOrder` | components/ResumeTemplates.tsx:189-204 | list entry i is item i (same id and title): no sorting |
| `SectionRendering.FlattenTags` | components/ResumeTemplates.tsx:181 | a chip appears iff it is a tag of some item of the section (missing tags count as none) |
| `SectionRendering.RenderAll` | components/ResumeTemplates.tsx:275-280 | a group renders one block per section, block i being section i rendered |
| `SectionRendering.FlattenTagsAppend` | components/ResumeTemplates.tsx:181 | the chips of two item runs are the chips of the first run followed by those of the second |
| `SectionRendering.SkillsChipOrder` | components/ResumeTemplates.tsx:181-185 | tag j of item i is the chip at offset (tags of the earlier items) + j: item order, then tag order |
| `SectionRendering.UntaggedItemAddsNoChips` | components/ResumeTemplates.tsx:181 | an item with missing or empty tags contributes no chip |
| `SectionRendering.VisibilityToggle` | components/ResumeTemplates.tsx:164 | hiding blanks a section; switching it back restores the exact earlier output; an unset flag renders like true |
| `Templates.SkeletonOf` | components/ResumeTemplates.tsx:249-481 | Template6 alone is the caption-row layout; Templates 1, 5, 7 and 8 read the sidebar group first, 2, 3 and 4 the main group; Template8 alone uses the light-on-dark item colours (line 461), the rest the renderer's defaults; Template6 alone defaults to the monospace font, and all keep the default colour and size |
| `Templates.DefaultResume` | components/ResumeTemplates.tsx:501-509 | no output iff data or sections are missing; one sheet per page; the watermark on sheet 0 unless premium is true; the sheet's font family is the given theme's, else the selected layout's default |
| `Templates.TemplateFor` | components/ResumeTemplates.tsx:484-507 | the selected layout is between 1 and 8; ids 1–20 map to ((id-1) mod 8)+1; every other id falls back to 1 |
| `Templates.RenderPage` | components/ResumeTemplates.tsx:249-481 | a template draws nothing without basics; it shows the identity header iff the page index is 0; its tokens are one of the three tables, the one whose tier the theme's size resolves to |
| `Templates.LabelRows` | components/ResumeTemplates.tsx:417-422 | Template6 emits one row per page section |
| `Templates.MultiPage` | components/ResumeTemplates.tsx:217-242 | no output iff data or sections are missing; otherwise one sheet per page of the split, indexed in order; the watermark appears iff not premium and index 0; a body appears iff basics exist, with the header only on sheet 0 |
| `Templates.ContentPlacedOnce` | components/ResumeTemplates.tsx:228-236 | across all pages, the sections routed into the two column groups are the document's non-break sections, each exactly once |
| `Templates.ColumnSheetsShowRoutedGroups` | components/ResumeTemplates.tsx:259-281 | in a two-column layout, sheet i shows page i's left and right groups, each rendered in page order |
| `Templates.LabelStripSheetsShowRows` | components/ResumeTemplates.tsx:417-422 | in Template6, sheet i shows one caption row per section of page i, in page order |
| `Templates.SheetsShareTokens` | components/ResumeTemplates.tsx:229-236 | every sheet with a body uses the same token table, the one for the theme's resolved size |
| `Templates.ArrangementsAgreeOnGroups` | components/ResumeTemplates.tsx:249-454 | two two-column layouts with the same palette put the same blocks in the same groups on every sheet |
| `Templates.AliasesRenderAlike` | components/ResumeTemplates.tsx:484-509 | each alias id renders exactly like its layout; an unknown or missing id renders exactly like Template1 |
| `Templates.DefaultFontPerLayout` | components/ResumeTemplates.tsx:399 | with no theme given, ids 6 and 14 give every sheet the monospace font family and every other id the default one |
| `Templates.LabelStripIgnoresColumns` | components/ResumeTemplates.tsx:417-422 | Template6's output does not depend on any section's column |
| `Templates.LabelStripRows` | components/ResumeTemplates.tsx:417-422 | Template6 row i is section i: caption = its title in the accent colour, block rendered with an empty title; a hidden section keeps its caption row |
| `Templates.TwoPageScenario` | components/ResumeTemplates.tsx:105-126 | five sections with a break third, sections 2 and 4 in the left column, large tier, Template1: two sheets with left [2], right [1] and left [4], right [5], both at the large tokens |
| `Ledger.UpdateRow` | app/api/user/deduct-credit/route.ts:36-39 | an update by id rewrites that row if it exists; it changes nothing otherwise and never touches another row |
| `DeductCredit.Post` | app/api/user/deduct-credit/route.ts:5-50 | 401 iff no user; 404 iff the read fails or the row is missing; 403 iff the balance is null or below 1; 500 carries the update error; 200 iff all checks pass, and then the row's balance becomes remaining = old - 1 >= 0; any non-200 leaves the table unchanged |
| `DeductCredit.DeductionAccounting` | app/api/user/deduct-credit/route.ts:36-45 | a 200 lowers the caller's balance by exactly one; no other row changes |
| `DeductCredit.DeductKeepsCreditsNonNegative` | app/api/user/deduct-credit/route.ts:31-45 | starting from non-negative balances, no balance becomes negative |
| `PaymentVerify.SignedMessage` | app/api/payment/verify/route.ts:10 | the signed message is the order id, then "|", then the payment id (an absent id prints as "undefined") |
| `PaymentVerify.SigOk` | app/api/payment/verify/route.ts:9-15 | a request without a signature never verifies |
| `PaymentVerify.PlanTypeIsUnsigned` | app/api/payment/verify/route.ts:7-15 | the plan type is not signed: a request verifies for one plan type iff it verifies for every other |
| `PaymentVerify.Grant` | app/api/payment/verify/route.ts:21-40 | no row is added or removed; only the caller's row can change; nothing changes with no user or a failed write; credits change only for standard, subscription fields only for premium |
| `PaymentVerify.Post` | app/api/payment/verify/route.ts:6-43 | a bad signature gives 400 with no write; a good one gives 200 success; no row other than the caller's changes; with no user, or a plan type other than premium/standard, nothing changes |
| `PaymentVerify.StandardAddsOneCredit` | app/api/payment/verify/route.ts:32-39 | a verified standard payment makes the balance old + 1, with null counting as 0 |
| `PaymentVerify.PremiumSetsPro` | app/api/payment/verify/route.ts:22-30 | a verified premium payment sets the status to pro and the end day to today + 30, and leaves credits alone |
| `PaymentVerify.FailedReadResetsBalance` | app/api/payment/verify/route.ts:34-35 | if the balance read fails, the standard grant writes 1 whatever the row held |
| `PaymentVerify.FailedWriteStillReportsSuccess` | app/api/payment/verify/route.ts:27-43 | a failed update is still answered with 200 success, and the table is unchanged |
| `PaymentVerify.PricingRequest` | app/pricing/page.tsx:62-69 | the pricing checkout posts the signature and no plan type |
| `PaymentVerify.PricingCheckoutGrantsNothing` | app/pricing/page.tsx:62-69 | the pricing checkout can verify, but it never changes the table |
| `PaymentVerify.VerifyKeepsCreditsNonNegative` | app/api/payment/verify/route.ts:32-39 | starting from non-negative balances, no balance becomes negative |
| `LedgerRuns.StepBalance` | app/api/user/deduct-credit/route.ts:31-45 | after one request, the user's balance plus one for a granted download is at most the old balance plus one for a verified standard request; balances stay non-negative |
| `LedgerRuns.DownloadsAreCovered` | app/api/user/deduct-credit/route.ts:31-45 | over any request sequence, final balance + downloads granted <= initial balance + verified standard requests, and balances stay non-negative |
| `LedgerRuns.DownloadBound` | app/api/user/deduct-credit/route.ts:31-45 | the downloads granted to a user never exceed the initial balance plus the verified standard requests |
| `LedgerRuns.ReplayCountsTwice` | app/api/payment/verify/route.ts:9-39 | posting the same signed standard request twice counts twice and adds two credits: a verified standard request is not necessarily a new payment |

## Left out

- JSX, Tailwind classes and inline CSS are presentation only. Only the tier token table and the renderer's colour overrides are kept.
- The contents of each template's identity header are not modelled: which basics fields it shows, the photo, the initials fallback. A page only records whether the header is shown and for which basics.
- The visual placement of the groups (sidebar width, header band, dark card) is not modelled. A layout only records whether the sidebar group or the main group is read first.
- Rich-text markup in `content` and `description` is an opaque string. The unescaped HTML injection is not modelled, and neither is the `String(content)` coercion.
- The rich-text toolbar splice in the editor is not part of this model.
- `Theme.dark` is not modelled. Template8's default theme sets it, but rendering never reads it.
- `SectionRenderer`'s null-section guard (line 162) is left out. Sections live in a sequence and are never null.
- Unknown `column` or `type` strings cannot be represented. Column values are left, right, full or absent. Section kinds are the four declared ones.
- `items` is a non-null sequence. The source would throw on a missing one.
- Supabase queries, cookies and auth are replaced by function inputs and the profiles map. The catch-all 500 for a thrown exception in deduct-credit (lines 47-50) is not modelled.
- PaymentVerify.Post: the verify route has no try/catch. A body that does not parse, an unset key secret or a failing `getUser` (app/api/payment/verify/route.ts:7-19) ends in the framework's 500 response. The model answers only 400 or 200, because these are failures of the runtime, not decisions of the route.
- PaymentVerify.SignedMessage: a JSON `null` id is interpolated as "null" (app/api/payment/verify/route.ts:10). The model cannot express it, because `Option<string>` has only one absent value, and that value prints as "undefined".
- Templates.DefaultResume: `Page.font` is only the sheet's font-family prop (components/ResumeTemplates.tsx:235). Template6's content wrapper also carries the `font-mono` class (line 403), so its text prints in monospace whatever the theme's font is. CSS classes are not modelled.
- LedgerRuns.DownloadsAreCovered: the bound is over verified standard requests, not over payments. The verify route records no used payment id, so one payment can be verified again and again, and each time it grants a credit (`LedgerRuns.ReplayCountsTwice`).
- The read-then-write race between concurrent requests is not modelled. `LedgerRuns` applies requests one at a time.
- Razorpay's HMAC-SHA256 is the parameter `hmac`. The model says nothing about it beyond being a function of the message.
- `Date` arithmetic is an integer day count, so the premium end date is `today + 30`.
- `app/api/payment/create/route.ts`, the admin routes and pages, the AI proxy, the auth callback and all page components are not part of this model. They are network and UI plumbing.

=== FILE: column_routing.dfy ===
/** Routing one page's sections into the sidebar (`left`) group and the main
    (`right`) group (`getPageColumns`). */
module ColumnRouting {
  import opened Options
  import opened Seqs
  import opened Document

  predicate IsLeft(s: Section) {
    s.column == Some(Left)
  }

  /** Everything not explicitly `left` (right, full or unset) goes to the main group. */
  predicate IsMain(s: Section) {
    s.column != Some(Left)
  }

  datatype PageColumns = PageColumns(left: seq<Section>, right: seq<Section>, full: seq<Section>)

  /** An order-preserving bipartition of the page: `left` holds exactly the
      left-column sections, `right` every other one, each in page order, and
      `full` is the page untouched. */
  function GetPageColumns(page: seq<Section>): (r: PageColumns)
    ensures r.full == page
    ensures forall i :: 0 <= i < |r.left| ==> r.left[i].column == Some(Left)
    ensures forall i :: 0 <= i < |r.right| ==> r.right[i].column != Some(Left)
    ensures IsInterleaving(page, r.left, r.right)
    ensures |r.left| + |r.right| == |page|
    ensures multiset(r.left) + multiset(r.right) == multiset(page)
  {
    var left := Filter(page, IsLeft);
    var right := Filter(page, IsMain);
    FilterPartition(page, IsLeft, IsMain);
    InterleavingMultiset(page, left, right);
    PageColumns(left, right, page)
  }

  /** A section is in the sidebar group iff its column is `left`, and in the
      main group iff it is on the page and not `left`. */
  lemma ColumnMembership(page: seq<Section>, s: Section)
    ensures s in GetPageColumns(page).left <==> s in page && s.column == Some(Left)
    ensures s in GetPageColumns(page).right <==> s in page && s.column != Some(Left)
  {
    FilterMembers(page, IsLeft, s);
    FilterMembers(page, IsMain, s);
  }

  /** Routing is insensitive to which non-left value a section carries:
      `right`, `full` and unset all land in the main group. */
  lemma NonLeftColumnsRouteAlike(page: seq<Section>, s: Section, c: Option<Column>)
    requires c != Some(Left) && s.column != Some(Left)
    ensures GetPageColumns(page + [s]).right == GetPageColumns(page).right + [s]
    ensures GetPageColumns(page + [s.(column := c)]).right == GetPageColumns(page).right + [s.(column := c)]
    ensures GetPageColumns(page + [s]).left == GetPageColumns(page).left
    ensures GetPageColumns(page + [s.(column := c)]).left == GetPageColumns(page).left
  {
    FilterAppend(page, [s], IsMain);
    FilterAppend(page, [s], IsLeft);
    FilterAppend(page, [s.(column := c)], IsMain);
    FilterAppend(page, [s.(column := c)], IsLeft);
  }
}

=== FILE: deduct_credit.dfy ===
/** `POST /api/user/deduct-credit`: spend one download credit. */
module DeductCredit {
  import opened Options
  import opened Ledger

  /** What the database does on this request: the profile read fails, or the
      update fails with a message. */
  datatype Faults = Faults(fetchFails: bool, updateError: Option<string>)

  /** The route's decision chain. A missing row makes `.single()` fail, so it
      answers like a failed read; a null balance compares below 1. */
  function Post(user: Option<UserId>, t: Profiles, faults: Faults): (r: (Response, Profiles))
    ensures r.0.status in {200, 401, 403, 404, 500}
    ensures r.0.status == 401 <==> user.None?
    ensures r.0.status == 404 <==> user.Some? && (faults.fetchFails || user.value !in t)
    ensures r.0.status == 403 <==>
      user.Some? && !faults.fetchFails && user.value in t
      && (t[user.value].credits.None? || t[user.value].credits.value < 1)
    ensures r.0.status == 500 ==> faults.updateError.Some? && r.0.body == ErrorJson(faults.updateError.value)
    ensures r.0.status == 200 <==>
      user.Some? && !faults.fetchFails && user.value in t
      && t[user.value].credits.Some? && t[user.value].credits.value >= 1 && faults.updateError.None?
    ensures r.0.status != 200 ==> r.1 == t && r.0.body.ErrorJson?
    ensures r.0.status == 200 ==>
      user.Some? && user.value in t && t[user.value].credits.Some?
      && r.0.body.Deducted? && r.0.body.remaining >= 0
      && t[user.value].credits.value == r.0.body.remaining + 1
      && r.1 == t[user.value := t[user.value].(credits := Some(r.0.body.remaining))]
  {
    if user.None? then (Response(401, ErrorJson("Unauthorized")), t)
    else if faults.fetchFails || user.value !in t then (Response(404, ErrorJson("Profile not found")), t)
    else
      var p := t[user.value];
      if p.credits.None? || p.credits.value < 1 then (Response(403, ErrorJson("Insufficient credits")), t)
      else if faults.updateError.Some? then (Response(500, ErrorJson(faults.updateError.value)), t)
      else
        var remaining := p.credits.value - 1;
        (Response(200, Deducted(remaining)), t[user.value := p.(credits := Some(remaining))])
  }

  /** A successful deduction lowers the caller's balance by exactly one and
      touches nothing else; any other outcome changes nothing. */
  lemma DeductionAccounting(user: Option<UserId>, t: Profiles, faults: Faults)
    ensures var (resp, t') := Post(user, t, faults);
      t'.Keys == t.Keys
      && (resp.status == 200 ==> Balance(t', user.value) == Balance(t, user.value) - 1)
      && forall v :: v in t && Some(v) != user ==> t'[v] == t[v]
  {
  }

  /** The route never writes a negative balance, so it keeps every stored
      balance non-negative. */
  lemma DeductKeepsCreditsNonNegative(user: Option<UserId>, t: Profiles, faults: Faults)
    requires NonNegativeCredits(t)
    ensures NonNegativeCredits(Post(user, t, faults).1)
  {
  }
}

=== FILE: document.dfy ===
/** The resume document: sections, their items, the identity block and the
    theme chosen in the design panel (components/ResumeTemplates.tsx, the
    exported types and `defaultTheme`). */
module Document {
  import opened Options

  datatype SectionKind = Text | List | Skills | Break

  /** Column placement; an absent column is `None`. */
  datatype Column = Left | Right | Full

  datatype SectionItem = SectionItem(
    id: string,
    title: Option<string>,
    subtitle: Option<string>,
    date: Option<string>,
    location: Option<string>,
    description: Option<string>,  // rich markup, opaque here
    tags: Option<seq<string>>)

  datatype Section = Section(
    id: string,
    title: string,
    kind: SectionKind,
    items: seq<SectionItem>,
    content: Option<string>,      // rich markup for `Text` sections, opaque here
    isVisible: Option<bool>,
    column: Option<Column>)

  datatype Basics = Basics(
    fullName: string,
    email: string,
    phone: Option<string>,
    location: Option<string>,
    website: Option<string>,
    jobTitle: Option<string>,
    image: Option<string>)

  /** Either part may be missing while the document is still loading. */
  datatype ResumeData = ResumeData(basics: Option<Basics>, sections: Option<seq<Section>>)

  /** `fontSize` is kept as the raw string the caller supplied: the renderer
      treats any value other than "small" and "large" as the medium tier. */
  datatype Theme = Theme(color: string, font: Option<string>, fontSize: Option<string>)

  const DefaultTheme := Theme("#0ea5a4", Some("Inter, system-ui, -apple-system, sans-serif"), Some("medium"))

  /** JavaScript truthiness of an optional string: present and non-empty. */
  predicate Truthy(o: Option<string>) {
    o.Some? && o.value != ""
  }

  predicate IsBreak(s: Section) {
    s.kind == Break
  }

  predicate IsContent(s: Section) {
    !IsBreak(s)
  }

  /** Only an explicit `false` hides a section; an absent flag means visible. */
  predicate IsVisible(s: Section) {
    s.isVisible != Some(false)
  }
}

=== FILE: ledger.dfy ===
/** The `profiles` table as the two credit routes see it, and their JSON
    responses. Supabase is replaced by a map from user id to row. */
module Ledger {
  import opened Options

  type UserId = string

  /** The columns the routes read or write; `credits` may be null. */
  datatype Profile = Profile(credits: Option<int>, subscriptionStatus: Option<string>, subscriptionEndDay: Option<int>)

  type Profiles = map<UserId, Profile>

  datatype Json =
    | ErrorJson(message: string)            // { error }
    | Deducted(remaining: int)              // { success: true, remaining }
    | Verified                              // { success: true }

  datatype Response = Response(status: int, body: Json)

  /** The balance a row holds for accounting purposes: a null balance or a
      missing row counts as zero. */
  function Balance(t: Profiles, u: UserId): int {
    if u in t && t[u].credits.Some? then t[u].credits.value else 0
  }

  /** No stored balance is negative. */
  ghost predicate NonNegativeCredits(t: Profiles) {
    forall u :: u in t && t[u].credits.Some? ==> t[u].credits.value >= 0
  }

  /** `update(...).eq('id', u)`: rewrites the row if it exists, and matches
      nothing (leaving the table as it is) otherwise. */
  function UpdateRow(t: Profiles, u: UserId, p: Profile): (t': Profiles)
    ensures t'.Keys == t.Keys
    ensures u in t ==> t'[u] == p
    ensures forall v :: v in t && v != u ==> t'[v] == t[v]
  {
    if u in t then t[u := p] else t
  }
}

=== FILE: ledger_runs.dfy ===
/** Both credit routes applied to one profiles table, request after request
    (each request on its own: the read-then-write race between concurrent
    requests is not modelled). */
module LedgerRuns {
  import opened Options
  import opened Ledger
  import DeductCredit
  import PaymentVerify

  datatype Call =
    | DeductCall(user: Option<UserId>, deductFaults: DeductCredit.Faults)
    | VerifyCall(req: PaymentVerify.Request, caller: Option<UserId>, today: int, verifyFaults: PaymentVerify.Faults)

  function Step(hmac: string -> string, t: Profiles, c: Call): (Response, Profiles) {
    match c
    case DeductCall(user, f) => DeductCredit.Post(user, t, f)
    case VerifyCall(req, user, today, f) => PaymentVerify.Post(hmac, req, user, t, today, f)
  }

  /** A download was granted to `u`: a deduction for `u` answered 200. */
  predicate IsDownload(hmac: string -> string, t: Profiles, c: Call, u: UserId) {
    c.DeductCall? && c.user == Some(u) && Step(hmac, t, c).0.status == 200
  }

  /** A verified standard request by `u`: a correctly signed verification
      for `u` whose plan type is `standard`. It need not be a new payment:
      nothing records a payment id once it has been used. */
  predicate IsStandardGrant(hmac: string -> string, c: Call, u: UserId) {
    c.VerifyCall? && c.caller == Some(u) && c.req.planType == Some("standard") && PaymentVerify.SigOk(hmac, c.req)
  }

  function Run(hmac: string -> string, t: Profiles, calls: seq<Call>): Profiles
    decreases |calls|
  {
    if |calls| == 0 then t else Run(hmac, Step(hmac, t, calls[0]).1, calls[1..])
  }

  function Downloads(hmac: string -> string, t: Profiles, calls: seq<Call>, u: UserId): nat
    decreases |calls|
  {
    if |calls| == 0 then 0
    else (if IsDownload(hmac, t, calls[0], u) then 1 else 0) + Downloads(hmac, Step(hmac, t, calls[0]).1, calls[1..], u)
  }

  function StandardGrants(hmac: string -> string, calls: seq<Call>, u: UserId): nat
    decreases |calls|
  {
    if |calls| == 0 then 0
    else (if IsStandardGrant(hmac, calls[0], u) then 1 else 0) + StandardGrants(hmac, calls[1..], u)
  }

  /** One request: `u`'s balance plus one for a granted download is at most
      the old balance plus one for a verified standard request. Such a
      request whose balance read fails can still lower the balance, to 1. */
  lemma StepBalance(hmac: string -> string, t: Profiles, c: Call, u: UserId)
    requires NonNegativeCredits(t)
    ensures NonNegativeCredits(Step(hmac, t, c).1)
    ensures Balance(Step(hmac, t, c).1, u) + (if IsDownload(hmac, t, c, u) then 1 else 0)
      <= Balance(t, u) + (if IsStandardGrant(hmac, c, u) then 1 else 0)
  {
    match c
    case DeductCall(user, f) =>
      DeductCredit.DeductKeepsCreditsNonNegative(user, t, f);
      DeductCredit.DeductionAccounting(user, t, f);
    case VerifyCall(req, user, today, f) =>
      PaymentVerify.VerifyKeepsCreditsNonNegative(hmac, req, user, t, today, f);
  }

  /** Every download is covered by a credit: over any sequence of requests
      starting from non-negative balances, `u`'s final balance plus the
      downloads `u` was granted never exceeds `u`'s initial balance plus the
      verified standard requests `u` sent; balances stay non-negative
      throughout. */
  lemma {:induction false} DownloadsAreCovered(hmac: string -> string, t: Profiles, calls: seq<Call>, u: UserId)
    requires NonNegativeCredits(t)
    ensures NonNegativeCredits(Run(hmac, t, calls))
    ensures Balance(Run(hmac, t, calls), u) + Downloads(hmac, t, calls, u) <= Balance(t, u) + StandardGrants(hmac, calls, u)
    decreases |calls|
  {
    if |calls| > 0 {
      StepBalance(hmac, t, calls[0], u);
      DownloadsAreCovered(hmac, Step(hmac, t, calls[0]).1, calls[1..], u);
    }
  }

  /** Hence the number of downloads is bounded by the initial balance plus
      the verified standard requests. */
  lemma DownloadBound(hmac: string -> string, t: Profiles, calls: seq<Call>, u: UserId)
    requires NonNegativeCredits(t)
    ensures Downloads(hmac, t, calls, u) <= Balance(t, u) + StandardGrants(hmac, calls, u)
  {
    DownloadsAreCovered(hmac, t, calls, u);
    assert Balance(Run(hmac, t, calls), u) >= 0;
  }

  /** A verification can be replayed: posting the same signed standard
      request twice counts as two verified standard requests and adds two
      credits, because the route keeps no record of used payment ids. */
  lemma ReplayCountsTwice(hmac: string -> string, t: Profiles, c: Call, u: UserId)
    requires c.VerifyCall? && c.caller == Some(u) && u in t
    requires c.req.planType == Some("standard") && PaymentVerify.SigOk(hmac, c.req)
    requires !c.verifyFaults.readFails && !c.verifyFaults.writeFails
    ensures StandardGrants(hmac, [c, c], u) == 2
    ensures Balance(Run(hmac, t, [c, c]), u) == Balance(t, u) + 2
  {
    var t1 := Step(hmac, t, c).1;
    assert Balance(t1, u) == Balance(t, u) + 1;
    assert [c, c][1..] == [c];
    assert Run(hmac, t, [c, c]) == Run(hmac, t1, [c]);
    assert Run(hmac, t1, [c]) == Run(hmac, Step(hmac, t1, c).1, []);
    assert StandardGrants(hmac, [c, c], u) == 1 + StandardGrants(hmac, [c], u);
  }
}

=== FILE: options.dfy ===
/** Optional values: the model's rendering of a TypeScript field that may be
    `undefined` or `null`. */
module Options {

  datatype Option<+T> = None | Some(value: T) {

    /** The value, or `default` when absent (a default parameter, or `x ?? default`). */
    function GetOr(default: T): T {
      match this
      case Some(v) => v
      case None => default
    }
  }
}

=== FILE: pagination.dfy ===
/** Splitting the document's section list into printable pages at `break`
    markers (`usePages`). */
module Pagination {
  import opened Seqs
  import opened Document

  function BreakCount(s: seq<Section>): nat {
    |Filter(s, IsBreak)|
  }

  /** The runs of sections between consecutive break markers, in order
      (see `SegmentsShape` for what they hold). */
  function Segments(s: seq<Section>): (r: seq<seq<Section>>)
    ensures |r| >= 1
    decreases |s|
  {
    if |s| == 0 then [[]]
    else
      var rest := Segments(s[1..]);
      if IsBreak(s[0]) then [[]] + rest
      else [[s[0]] + rest[0]] + rest[1..]
  }

  /** One more segment than there are breaks; no segment holds a break; and
      together the segments hold every non-break section in order. */
  lemma {:induction false} SegmentsShape(s: seq<Section>)
    ensures |Segments(s)| == BreakCount(s) + 1
    ensures Flatten(Segments(s)) == Filter(s, IsContent)
    ensures forall k, j :: 0 <= k < |Segments(s)| && 0 <= j < |Segments(s)[k]| ==> IsContent(Segments(s)[k][j])
    decreases |s|
  {
    if |s| > 0 {
      var rest := Segments(s[1..]);
      SegmentsShape(s[1..]);
      if !IsBreak(s[0]) {
        var g := [[s[0]] + rest[0]] + rest[1..];
        assert g[1..] == rest[1..];
        assert Flatten(rest) == rest[0] + Flatten(rest[1..]);
        assert Flatten(g) == [s[0]] + rest[0] + Flatten(rest[1..]);
        forall k, j | 0 <= k < |g| && 0 <= j < |g[k]|
          ensures IsContent(g[k][j])
        {
          if k == 0 && j > 0 {
            assert g[k][j] == rest[0][j - 1];
          } else if k > 0 {
            assert g[k] == rest[k];
          }
        }
      } else {
        var g := [[]] + rest;
        assert g[1..] == rest;
        forall k, j | 0 <= k < |g| && 0 <= j < |g[k]|
          ensures IsContent(g[k][j])
        {
          assert g[k] == rest[k - 1];
        }
      }
    }
  }

  /** The sections after the last break marker (all of them when there is none). */
  function LastSegment(s: seq<Section>): seq<Section> {
    var g := Segments(s);
    g[|g| - 1]
  }

  /** The page list: the segments, except that an empty segment after the
      last break is dropped unless it is the only one. */
  function Paginate(s: seq<Section>): (pages: seq<seq<Section>>)
    ensures |pages| >= 1
  {
    var g := Segments(s);
    if g[|g| - 1] != [] || |g| == 1 then g else g[..|g| - 1]
  }

  /** Appending a break to the input closes the last segment. */
  lemma {:induction false} SegmentsSnocBreak(s: seq<Section>, x: Section)
    requires IsBreak(x)
    ensures Segments(s + [x]) == Segments(s) + [[]]
    decreases |s|
  {
    if |s| == 0 {
      assert s + [x] == [x];
      assert [x][1..] == [];
    } else {
      assert (s + [x])[0] == s[0];
      assert (s + [x])[1..] == s[1..] + [x];
      SegmentsSnocBreak(s[1..], x);
      var rest := Segments(s[1..]);
      if !IsBreak(s[0]) {
        assert (rest + [[]])[1..] == rest[1..] + [[]];
      }
    }
  }

  /** Appending a non-break section to the input extends the last segment. */
  lemma {:induction false} SegmentsSnocContent(s: seq<Section>, x: Section)
    requires IsContent(x)
    ensures var g := Segments(s);
      Segments(s + [x]) == g[..|g| - 1] + [g[|g| - 1] + [x]]
    decreases |s|
  {
    if |s| == 0 {
      assert s + [x] == [x];
      assert [x][1..] == [];
      assert Segments([x]) == [[x] + []] + [[]][1..];
      assert [x] + [] == [] + [x];
    } else {
      assert (s + [x])[0] == s[0];
      assert (s + [x])[1..] == s[1..] + [x];
      SegmentsSnocContent(s[1..], x);
      var g := Segments(s);
      var rest := Segments(s[1..]);
      var n := |rest|;
      var rest' := rest[..n - 1] + [rest[n - 1] + [x]];
      if IsBreak(s[0]) {
        assert g[..|g| - 1] == [[]] + rest[..n - 1];
      } else if n == 1 {
        assert rest'[1..] == [];
        assert [s[0]] + (rest[0] + [x]) == ([s[0]] + rest[0]) + [x];
      } else {
        assert rest'[0] == rest[0];
        assert rest'[1..] == rest[1..n - 1] + [rest[n - 1] + [x]];
        assert g[..|g| - 1] == [[s[0]] + rest[0]] + rest[1..n - 1];
      }
    }
  }

  /** The loop of `usePages`: a buffer collects sections, a break pushes the
      buffer as a page, and the final buffer is pushed only when it is
      non-empty or no page exists yet. */
  method UsePages(sections: seq<Section>) returns (pages: seq<seq<Section>>)
    ensures pages == Paginate(sections)
  {
    pages := [];
    var current: seq<Section> := [];
    for i := 0 to |sections|
      invariant pages + [current] == Segments(sections[..i])
    {
      assert sections[..i + 1] == sections[..i] + [sections[i]];
      if sections[i].kind == Break {
        SegmentsSnocBreak(sections[..i], sections[i]);
        pages := pages + [current];
        current := [];
      } else {
        SegmentsSnocContent(sections[..i], sections[i]);
        current := current + [sections[i]];
      }
    }
    assert sections[..|sections|] == sections;
    if |current| > 0 || |pages| == 0 {
      pages := pages + [current];
    }
  }

  /** A break-free section list is a single segment. */
  lemma {:induction false} SegmentsOfBreakFree(s: seq<Section>)
    requires forall i :: 0 <= i < |s| ==> IsContent(s[i])
    ensures Segments(s) == [s]
    decreases |s|
  {
    if |s| > 0 {
      SegmentsOfBreakFree(s[1..]);
      assert [s[0]] + s[1..] == s;
    }
  }

  /** Splitting distributes over a break: the pages before it and the pages
      after it, in that order. With `SegmentsOfBreakFree` this determines
      the segments of every input. */
  lemma {:induction false} SegmentsAtBreak(a: seq<Section>, b: Section, c: seq<Section>)
    requires IsBreak(b)
    ensures Segments(a + [b] + c) == Segments(a) + Segments(c)
    decreases |a|
  {
    if |a| == 0 {
      assert a + [b] + c == [b] + c;
      assert ([b] + c)[1..] == c;
    } else {
      assert (a + [b] + c)[0] == a[0];
      assert (a + [b] + c)[1..] == a[1..] + [b] + c;
      SegmentsAtBreak(a[1..], b, c);
    }
  }

  /** The last segment is exactly the tail of the input after its last break:
      a suffix of the input, preceded (if shorter than the input) by a break. */
  lemma {:induction false} LastSegmentIsTail(s: seq<Section>)
    ensures |LastSegment(s)| <= |s|
    ensures s[|s| - |LastSegment(s)|..] == LastSegment(s)
    ensures |LastSegment(s)| < |s| ==> IsBreak(s[|s| - |LastSegment(s)| - 1])
    decreases |s|
  {
    if |s| > 0 {
      var r := s[1..];
      var rest := Segments(r);
      var t := LastSegment(r);
      LastSegmentIsTail(r);
      SegmentsShape(r);
      assert s[|s| - |t|..] == r[|r| - |t|..];
      if IsBreak(s[0]) {
        assert LastSegment(s) == t;
      } else if |rest| == 1 {
        if |t| < |r| {
          var k := |r| - |t| - 1;
          assert IsBreak(r[k]);
          FilterMembers(r, IsBreak, r[k]);
          assert false;
        }
        assert t == r;
        assert LastSegment(s) == [s[0]] + r == s;
      } else {
        assert LastSegment(s) == t;
        if |t| == |r| {
          assert |Filter(r, IsBreak)| > 0;
          var b := Filter(r, IsBreak)[0];
          FilterMembers(r, IsBreak, b);
          assert false;
        }
      }
    }
  }

  /** No page contains a break marker. */
  lemma PagesHoldNoBreaks(s: seq<Section>)
    ensures var pages := Paginate(s);
      forall k, j :: 0 <= k < |pages| && 0 <= j < |pages[k]| ==> IsContent(pages[k][j])
  {
    SegmentsShape(s);
  }

  /** Reading the pages one after the other gives back exactly the non-break
      sections of the document, in document order. */
  lemma PaginatePreservesContent(s: seq<Section>)
    ensures Flatten(Paginate(s)) == Filter(s, IsContent)
  {
    var g := Segments(s);
    SegmentsShape(s);
    if !(g[|g| - 1] != [] || |g| == 1) {
      assert g == g[..|g| - 1] + [g[|g| - 1]];
      FlattenAppend(g[..|g| - 1], [g[|g| - 1]]);
      assert Flatten([g[|g| - 1]]) == [] + Flatten([g[|g| - 1]][1..]);
      assert [g[|g| - 1]][1..] == [];
    }
  }

  /** One page per break, plus one for a non-empty tail or a break-free document. */
  lemma PageCount(s: seq<Section>)
    ensures |Paginate(s)| == BreakCount(s) + (if LastSegment(s) != [] || BreakCount(s) == 0 then 1 else 0)
  {
    SegmentsShape(s);
  }

  /** The boundary cases of the splitting rule. */
  lemma BoundaryCases(a: Section, b: Section, brk: Section)
    requires IsContent(a) && IsContent(b) && IsBreak(brk)
    ensures Paginate([]) == [[]]
    ensures Paginate([a, brk]) == [[a]]
    ensures Paginate([a, brk, b]) == [[a], [b]]
    ensures Paginate([brk]) == [[]]
    ensures Paginate([brk, brk]) == [[], []]
  {
    SegmentsOfBreakFree([a]);
    SegmentsOfBreakFree([b]);
    SegmentsOfBreakFree([]);
    SegmentsAtBreak([a], brk, []);
    SegmentsAtBreak([a], brk, [b]);
    SegmentsAtBreak([], brk, []);
    SegmentsAtBreak([], brk, [brk]);
    assert [a] + [brk] + [] == [a, brk];
    assert [a] + [brk] + [b] == [a, brk, b];
    assert [] + [brk] + [] == [brk];
    assert [] + [brk] + [brk] == [brk, brk];
  }
}

=== FILE: payment_verify.dfy ===
/** `POST /api/payment/verify`: check the payment signature, then grant what
    the plan type names. */
module PaymentVerify {
  import opened Options
  import opened Ledger

  /** The JSON body; every field may be absent. */
  datatype Request = Request(
    orderCreationId: Option<string>,
    razorpayPaymentId: Option<string>,
    razorpaySignature: Option<string>,
    planType: Option<string>)

  /** What the database does: the credits read fails (its error is ignored
      by the route), or the update fails (also ignored). */
  datatype Faults = Faults(readFails: bool, writeFails: bool)

  const PremiumDays := 30

  /** A template literal prints an absent value as "undefined". */
  function Interpolated(o: Option<string>): string {
    match o
    case None => "undefined"
    case Some(v) => v
  }

  /** The message the HMAC is computed over: order id, "|", payment id. */
  function SignedMessage(req: Request): (m: string)
    ensures |m| == |Interpolated(req.orderCreationId)| + 1 + |Interpolated(req.razorpayPaymentId)|
    ensures m[|Interpolated(req.orderCreationId)|] == '|'
    ensures m[..|Interpolated(req.orderCreationId)|] == Interpolated(req.orderCreationId)
    ensures m[|Interpolated(req.orderCreationId)| + 1..] == Interpolated(req.razorpayPaymentId)
  {
    Interpolated(req.orderCreationId) + "|" + Interpolated(req.razorpayPaymentId)
  }

  /** The signature gate. The keyed SHA-256 digest is a parameter: the model
      says nothing about it beyond being a function of the message. */
  predicate SigOk(hmac: string -> string, req: Request): (ok: bool)
    ensures ok ==> req.razorpaySignature.Some?
  {
    req.razorpaySignature == Some(hmac(SignedMessage(req)))
  }

  /** The grant after a valid signature: `premium` marks the row `pro` until
      30 days from `today`; `standard` writes (current balance or 0) + 1;
      anything else, or no signed-in user, changes nothing. */
  function Grant(planType: Option<string>, user: Option<UserId>, t: Profiles, today: int, faults: Faults): (r: Profiles)
    ensures r.Keys == t.Keys
    ensures forall v :: v in t && Some(v) != user ==> r[v] == t[v]
    ensures user.None? || faults.writeFails ==> r == t
    ensures planType != Some("standard") ==> forall v :: v in t ==> r[v].credits == t[v].credits
    ensures planType != Some("premium") ==> forall v :: v in t ==>
      r[v].subscriptionStatus == t[v].subscriptionStatus && r[v].subscriptionEndDay == t[v].subscriptionEndDay
  {
    if user.None? || faults.writeFails then t
    else
      var u := user.value;
      if planType == Some("premium") then
        if u in t then UpdateRow(t, u, t[u].(subscriptionStatus := Some("pro"), subscriptionEndDay := Some(today + PremiumDays)))
        else t
      else if planType == Some("standard") then
        var current := if !faults.readFails && u in t && t[u].credits.Some? then t[u].credits.value else 0;
        if u in t then UpdateRow(t, u, t[u].(credits := Some(current + 1))) else t
      else t
  }

  /** The plan type is not part of the signed message: a signature that
      verifies for one plan verifies for every plan, so the grant a verified
      payment receives is whatever plan type the client sends. */
  lemma PlanTypeIsUnsigned(hmac: string -> string, req: Request, plan: Option<string>)
    ensures SigOk(hmac, req) <==> SigOk(hmac, req.(planType := plan))
  {
    assert SignedMessage(req) == SignedMessage(req.(planType := plan));
  }

  function Post(hmac: string -> string, req: Request, user: Option<UserId>, t: Profiles, today: int, faults: Faults): (r: (Response, Profiles))
    ensures !SigOk(hmac, req) ==> r.0 == Response(400, ErrorJson("Transaction not legit!")) && r.1 == t
    ensures SigOk(hmac, req) ==> r.0 == Response(200, Verified)
    ensures r.1.Keys == t.Keys
    ensures forall v :: v in t && Some(v) != user ==> r.1[v] == t[v]
    ensures user.None? || req.planType !in {Some("premium"), Some("standard")} ==> r.1 == t
  {
    if !SigOk(hmac, req) then (Response(400, ErrorJson("Transaction not legit!")), t)
    else (Response(200, Verified), Grant(req.planType, user, t, today, faults))
  }

  /** A verified standard payment by a user with a row adds exactly one credit
      to the stored balance (a null balance counting as 0) and changes no
      other column. */
  lemma StandardAddsOneCredit(hmac: string -> string, req: Request, u: UserId, t: Profiles, today: int)
    requires SigOk(hmac, req) && req.planType == Some("standard") && u in t
    ensures var t' := Post(hmac, req, Some(u), t, today, Faults(false, false)).1;
      Balance(t', u) == Balance(t, u) + 1
      && t'[u] == t[u].(credits := Some(Balance(t, u) + 1))
  {
  }

  /** A verified premium payment marks the row `pro` until `today + 30` and
      leaves the balance alone. */
  lemma PremiumSetsPro(hmac: string -> string, req: Request, u: UserId, t: Profiles, today: int, readFails: bool)
    requires SigOk(hmac, req) && req.planType == Some("premium") && u in t
    ensures var t' := Post(hmac, req, Some(u), t, today, Faults(readFails, false)).1;
      t'[u].subscriptionStatus == Some("pro")
      && t'[u].subscriptionEndDay == Some(today + 30)
      && t'[u].credits == t[u].credits
  {
  }

  /** The route ignores a failed balance read: it then writes a balance of 1
      whatever the row held before. */
  lemma FailedReadResetsBalance(hmac: string -> string, req: Request, u: UserId, t: Profiles, today: int)
    requires SigOk(hmac, req) && req.planType == Some("standard") && u in t
    ensures Post(hmac, req, Some(u), t, today, Faults(true, false)).1[u].credits == Some(1)
  {
  }

  /** A failed write is not reported: the response is still success while
      the table is unchanged. */
  lemma FailedWriteStillReportsSuccess(hmac: string -> string, req: Request, user: Option<UserId>, t: Profiles, today: int, readFails: bool)
    requires SigOk(hmac, req)
    ensures Post(hmac, req, user, t, today, Faults(readFails, true)) == (Response(200, Verified), t)
  {
  }

  /** The request the pricing page sends: the three payment fields and no plan type. */
  function PricingRequest(orderId: string, paymentId: string, signature: string): (req: Request)
    ensures req.planType.None?
    ensures req.razorpaySignature == Some(signature)
  {
    Request(Some(orderId), Some(paymentId), Some(signature), None)
  }

  /** The pricing page's checkout verifies but grants nothing: whatever the
      signature, user and database behaviour, the table is unchanged. */
  lemma PricingCheckoutGrantsNothing(hmac: string -> string, orderId: string, paymentId: string, signature: string,
                                     user: Option<UserId>, t: Profiles, today: int, faults: Faults)
    ensures Post(hmac, PricingRequest(orderId, paymentId, signature), user, t, today, faults).1 == t
  {
  }

  /** Starting from non-negative balances, the route keeps them non-negative. */
  lemma VerifyKeepsCreditsNonNegative(hmac: string -> string, req: Request, user: Option<UserId>, t: Profiles, today: int, faults: Faults)
    requires NonNegativeCredits(t)
    ensures NonNegativeCredits(Post(hmac, req, user, t, today, faults).1)
  {
  }
}

=== FILE: section_rendering.dfy ===
/** What `SectionRenderer` puts on the page for one section: nothing for a
    break or a hidden section, otherwise a titled block whose body depends on
    the section's kind. Markup and CSS are abstracted away; the block keeps
    the data the reader sees and the style tokens and colours it is drawn with. */
module SectionRendering {
  import opened Options
  import opened Seqs
  import opened Document
  import opened ThemeStyles

  /** The colour overrides a template may pass (text, subtitle, date and tag colours). */
  datatype Palette = Palette(
    textColor: string,
    subTextColor: string,
    dateColor: string,
    tagBg: string,
    tagText: string,
    tagBorder: string)

  /** The renderer's parameter defaults; the empty subtitle colour means "use the accent". */
  const DefaultPalette := Palette("text-slate-900", "", "text-slate-500", "bg-slate-100", "text-slate-700", "border-slate-200")

  datatype Subtitle = Subtitle(text: string, color: string)

  /** One rendered list entry: title line, optional date, optional subtitle
      and optional description. */
  datatype ItemView = ItemView(
    id: string,
    title: Option<string>,
    date: Option<string>,
    subtitle: Option<Subtitle>,
    description: Option<string>)

  datatype Body =
    | RichText(content: Option<string>)
    | Chips(tags: seq<string>)
    | Items(views: seq<ItemView>)

  /** `Hidden` is the renderer returning nothing. A shown block always carries
      its header: the title is emitted even when it is the empty string. */
  datatype Block =
    | Hidden
    | Shown(sectionId: string, title: string, accent: string, styles: StyleTokens, palette: Palette, body: Body)

  /** A rich-text field that renders: `RichText` and `x && …` both drop falsy strings. */
  function Displayed(o: Option<string>): (r: Option<string>)
    ensures r.Some? <==> Truthy(o)
    ensures r.Some? ==> r == o
  {
    if Truthy(o) then o else None
  }

  /** `i.tags || []` */
  function TagsOf(item: SectionItem): seq<string> {
    item.tags.GetOr([])
  }

  function TagLists(items: seq<SectionItem>): (r: seq<seq<string>>)
    ensures |r| == |items|
    ensures forall i :: 0 <= i < |items| ==> r[i] == TagsOf(items[i])
  {
    seq(|items|, i requires 0 <= i < |items| => TagsOf(items[i]))
  }

  /** `items.flatMap(i => i.tags || [])`: the chips of a skills section. */
  function FlattenTags(items: seq<SectionItem>): (chips: seq<string>)
    ensures forall tag :: tag in chips <==> exists i :: 0 <= i < |items| && tag in TagsOf(items[i])
  {
    var lists := TagLists(items);
    FlattenTagsMembers(lists, items);
    Flatten(lists)
  }

  lemma FlattenTagsMembers(lists: seq<seq<string>>, items: seq<SectionItem>)
    requires lists == TagLists(items)
    ensures forall tag :: tag in Flatten(lists) <==> exists i :: 0 <= i < |items| && tag in TagsOf(items[i])
  {
    forall tag
      ensures tag in Flatten(lists) <==> exists i :: 0 <= i < |items| && tag in TagsOf(items[i])
    {
      FlattenMembers(lists, tag);
    }
  }

  function RenderItem(item: SectionItem, theme: Theme, pal: Palette): (v: ItemView)
    ensures v.id == item.id && v.title == item.title
    ensures v.date.Some? <==> Truthy(item.date)
    ensures v.date.Some? ==> v.date == item.date
    ensures v.description.Some? <==> Truthy(item.description)
    ensures v.description.Some? ==> v.description == item.description
    ensures v.subtitle.Some? <==> Truthy(item.subtitle)
    ensures v.subtitle.Some? ==> v.subtitle.value.text == item.subtitle.value
    ensures v.subtitle.Some? && pal.subTextColor != "" ==> v.subtitle.value.color == pal.subTextColor
    ensures v.subtitle.Some? && pal.subTextColor == "" ==> v.subtitle.value.color == theme.color
  {
    var subtitle :=
      if Truthy(item.subtitle) then
        Some(Subtitle(item.subtitle.value, if pal.subTextColor != "" then pal.subTextColor else theme.color))
      else None;
    ItemView(item.id, item.title, Displayed(item.date), subtitle, Displayed(item.description))
  }

  function RenderSection(s: Section, theme: Theme, pal: Palette): (b: Block)
    ensures b.Hidden? <==> IsBreak(s) || !IsVisible(s)
    ensures b.Shown? ==> b.sectionId == s.id && b.title == s.title && b.accent == theme.color && b.palette == pal
    ensures b.Shown? ==> TierOf(b.styles) == Tier(ResolveTier(theme.fontSize))
    ensures b.Shown? ==> b.styles == SmallTokens || b.styles == MediumTokens || b.styles == LargeTokens
    ensures b.Shown? && s.kind == Text ==> b.body == RichText(Displayed(s.content))
    ensures b.Shown? && s.kind == Skills ==> b.body == Chips(FlattenTags(s.items))
    ensures b.Shown? && s.kind == List ==>
      b.body.Items? && |b.body.views| == |s.items|
      && forall i :: 0 <= i < |s.items| ==> b.body.views[i] == RenderItem(s.items[i], theme, pal)
  {
    if s.isVisible == Some(false) then Hidden
    else
      var styles := GetThemeStyles(ResolveTier(theme.fontSize));
      match s.kind
      case Break => Hidden
      case Text => Shown(s.id, s.title, theme.color, styles, pal, RichText(Displayed(s.content)))
      case Skills => Shown(s.id, s.title, theme.color, styles, pal, Chips(FlattenTags(s.items)))
      case List =>
        var views := seq(|s.items|, i requires 0 <= i < |s.items| => RenderItem(s.items[i], theme, pal));
        Shown(s.id, s.title, theme.color, styles, pal, Items(views))
  }

  /** The sections of a group rendered one after the other. */
  function RenderAll(ss: seq<Section>, theme: Theme, pal: Palette): (bs: seq<Block>)
    ensures |bs| == |ss|
    ensures forall i :: 0 <= i < |ss| ==> bs[i] == RenderSection(ss[i], theme, pal)
  {
    seq(|ss|, i requires 0 <= i < |ss| => RenderSection(ss[i], theme, pal))
  }

  /** List entries keep their stored order: entry `i` renders item `i`, no sorting. */
  lemma ListKeepsStoredOrder(s: Section, theme: Theme, pal: Palette)
    requires s.kind == List && IsVisible(s)
    ensures var b := RenderSection(s, theme, pal);
      b.Shown? && b.body.Items?
      && |b.body.views| == |s.items|
      && forall i :: 0 <= i < |s.items| ==> b.body.views[i].id == s.items[i].id && b.body.views[i].title == s.items[i].title
  {
  }

  lemma {:induction false} FlattenTagsAppend(a: seq<SectionItem>, b: seq<SectionItem>)
    ensures FlattenTags(a + b) == FlattenTags(a) + FlattenTags(b)
  {
    assert TagLists(a + b) == TagLists(a) + TagLists(b);
    FlattenAppend(TagLists(a), TagLists(b));
  }

  /** The chips are the items' tags in item order, then tag order: tag `j`
      of item `i` is chip number (tags of the earlier items) + `j`. */
  lemma SkillsChipOrder(items: seq<SectionItem>, i: nat, j: nat)
    requires i < |items| && j < |TagsOf(items[i])|
    ensures |FlattenTags(items[..i])| + j < |FlattenTags(items)|
    ensures FlattenTags(items)[|FlattenTags(items[..i])| + j] == TagsOf(items[i])[j]
  {
    assert TagLists(items)[..i] == TagLists(items[..i]);
    FlattenIndex(TagLists(items), i, j);
  }

  /** An item without tags (missing or empty) contributes no chip. */
  lemma UntaggedItemAddsNoChips(a: seq<SectionItem>, x: SectionItem, b: seq<SectionItem>)
    requires TagsOf(x) == []
    ensures FlattenTags(a + [x] + b) == FlattenTags(a) + FlattenTags(b)
  {
    FlattenTagsAppend(a + [x], b);
    FlattenTagsAppend(a, [x]);
    var none: seq<seq<string>> := [[]];
    assert TagLists([x]) == none;
    assert Flatten(none) == [] + Flatten(none[1..]);
    assert none[1..] == [];
  }

  /** Hiding a section blanks it, and switching it back on restores exactly
      what it rendered before; an absent flag renders like `true`. */
  lemma VisibilityToggle(s: Section, theme: Theme, pal: Palette)
    requires IsVisible(s)
    ensures RenderSection(s.(isVisible := Some(false)), theme, pal) == Hidden
    ensures RenderSection(s.(isVisible := Some(true)), theme, pal) == RenderSection(s, theme, pal)
    ensures RenderSection(s.(isVisible := None), theme, pal) == RenderSection(s, theme, pal)
  {
  }
}

=== FILE: seqs.dfy ===
/** Generic sequence operations shared by the pagination and column routing
    models: an order-preserving filter, concatenation of a sequence of
    sequences, and the "interleaving" relation that says a sequence is split
    into two order-preserving parts. */
module Seqs {

  /** The elements of `s` that satisfy `p`, in their original order
      (JavaScript's `Array.prototype.filter`). */
  function Filter<T>(s: seq<T>, p: T -> bool): (r: seq<T>)
    ensures |r| <= |s|
    ensures forall i :: 0 <= i < |r| ==> p(r[i])
    decreases |s|
  {
    if |s| == 0 then []
    else if p(s[0]) then [s[0]] + Filter(s[1..], p)
    else Filter(s[1..], p)
  }

  /** An element of `s` that satisfies `p` is kept by the filter, and every
      kept element comes from `s`. */
  lemma {:induction false} FilterMembers<T>(s: seq<T>, p: T -> bool, x: T)
    ensures x in Filter(s, p) <==> x in s && p(x)
    decreases |s|
  {
    if |s| > 0 {
      FilterMembers(s[1..], p, x);
      assert s == [s[0]] + s[1..];
    }
  }

  lemma {:induction false} FilterAppend<T>(a: seq<T>, b: seq<T>, p: T -> bool)
    ensures Filter(a + b, p) == Filter(a, p) + Filter(b, p)
    decreases |a|
  {
    if |a| == 0 {
      assert a + b == b;
    } else {
      assert (a + b)[0] == a[0];
      assert (a + b)[1..] == a[1..] + b;
      FilterAppend(a[1..], b, p);
    }
  }

  /** Concatenation of a sequence of sequences, in order. */
  function Flatten<T>(ss: seq<seq<T>>): seq<T>
    decreases |ss|
  {
    if |ss| == 0 then [] else ss[0] + Flatten(ss[1..])
  }

  lemma {:induction false} FlattenAppend<T>(a: seq<seq<T>>, b: seq<seq<T>>)
    ensures Flatten(a + b) == Flatten(a) + Flatten(b)
    decreases |a|
  {
    if |a| == 0 {
      assert a + b == b;
    } else {
      assert (a + b)[0] == a[0];
      assert (a + b)[1..] == a[1..] + b;
      FlattenAppend(a[1..], b);
    }
  }

  /** An element is in the flattening iff it is in one of the parts. */
  lemma {:induction false} FlattenMembers<T>(ss: seq<seq<T>>, x: T)
    ensures x in Flatten(ss) <==> exists i :: 0 <= i < |ss| && x in ss[i]
    decreases |ss|
  {
    if |ss| > 0 {
      FlattenMembers(ss[1..], x);
      if x in Flatten(ss[1..]) {
        var i :| 0 <= i < |ss[1..]| && x in ss[1..][i];
        assert x in ss[i + 1];
      }
      if exists i :: 0 <= i < |ss| && x in ss[i] {
        var i :| 0 <= i < |ss| && x in ss[i];
        if i > 0 {
          assert x in ss[1..][i - 1];
        }
      }
    }
  }

  /** Element `j` of part `i` sits in the flattening right after the parts before it. */
  lemma FlattenIndex<T>(ss: seq<seq<T>>, i: nat, j: nat)
    requires i < |ss| && j < |ss[i]|
    ensures |Flatten(ss[..i])| + j < |Flatten(ss)|
    ensures Flatten(ss)[|Flatten(ss[..i])| + j] == ss[i][j]
  {
    assert ss == ss[..i] + [ss[i]] + ss[i + 1..];
    FlattenAppend(ss[..i] + [ss[i]], ss[i + 1..]);
    FlattenAppend(ss[..i], [ss[i]]);
    assert Flatten([ss[i]]) == ss[i] + Flatten([ss[i]][1..]);
    assert [ss[i]][1..] == [];
  }

  /** Parts with equal multisets flatten to sequences with equal multisets. */
  lemma {:induction false} FlattenMultiset<T>(a: seq<seq<T>>, b: seq<seq<T>>)
    requires |a| == |b|
    requires forall k :: 0 <= k < |a| ==> multiset(a[k]) == multiset(b[k])
    ensures multiset(Flatten(a)) == multiset(Flatten(b))
    decreases |a|
  {
    if |a| > 0 {
      FlattenMultiset(a[1..], b[1..]);
      assert multiset(a[0]) == multiset(b[0]);
    }
  }

  /** `s` is an order-preserving merge of `a` and `b`: every element of `s` is
      taken, in turn, from the front of `a` or of `b`, and nothing is left over. */
  ghost predicate IsInterleaving<T>(s: seq<T>, a: seq<T>, b: seq<T>)
    decreases |s|
  {
    if |s| == 0 then a == [] && b == []
    else
      (|a| > 0 && a[0] == s[0] && IsInterleaving(s[1..], a[1..], b))
      || (|b| > 0 && b[0] == s[0] && IsInterleaving(s[1..], a, b[1..]))
  }

  lemma {:induction false} InterleavingMultiset<T>(s: seq<T>, a: seq<T>, b: seq<T>)
    requires IsInterleaving(s, a, b)
    ensures multiset(a) + multiset(b) == multiset(s)
    ensures |a| + |b| == |s|
    decreases |s|
  {
    if |s| > 0 {
      if |a| > 0 && a[0] == s[0] && IsInterleaving(s[1..], a[1..], b) {
        InterleavingMultiset(s[1..], a[1..], b);
        assert a == [a[0]] + a[1..];
        assert s == [s[0]] + s[1..];
      } else {
        InterleavingMultiset(s[1..], a, b[1..]);
        assert b == [b[0]] + b[1..];
        assert s == [s[0]] + s[1..];
      }
    }
  }

  /** Filtering by a predicate and by its negation splits `s` into two
      order-preserving parts that together hold every element exactly once. */
  lemma {:induction false} FilterPartition<T>(s: seq<T>, p: T -> bool, q: T -> bool)
    requires forall x :: q(x) == !p(x)
    ensures IsInterleaving(s, Filter(s, p), Filter(s, q))
    decreases |s|
  {
    if |s| > 0 {
      FilterPartition(s[1..], p, q);
    }
  }
}

=== FILE: templates.dfy ===
/** Page assembly (`MultiPageWrapper`), the eight layout skeletons
    (`Template1`–`Template8`), the twelve aliases (`Template9`–`Template20`)
    and template selection with fallback (`DefaultResume`). */
module Templates {
  import opened Options
  import opened Seqs
  import opened Document
  import opened ThemeStyles
  import opened Pagination
  import opened ColumnRouting
  import opened SectionRendering

  /** How a skeleton places a page's sections: the two column groups with the
      sidebar group read first or the main group read first, or one row per
      section with its title in a label strip (Template6). */
  datatype Arrangement = SidebarFirst | MainFirst | LabelStrip

  datatype Skeleton = Skeleton(arrangement: Arrangement, palette: Palette, defaultTheme: Theme)

  /** Template6's default theme: the default with a monospace font. */
  const MonospaceTheme := DefaultTheme.(font := Some("ui-monospace, SFMono-Regular, Menlo, monospace"))

  /** Template8's light-on-dark overrides. */
  const DarkPalette := Palette("text-slate-300", "text-slate-400", "text-slate-400", "bg-slate-800", "text-slate-300", "border-slate-700")

  /** Template6 row: the section title in the label strip, the section itself
      rendered with an empty title beside it. */
  datatype LabelRow = LabelRow(sectionId: string, caption: string, captionColor: string, block: Block)

  datatype Layout =
    | Columns(sidebarFirst: bool, left: seq<Block>, right: seq<Block>)
    | Rows(rows: seq<LabelRow>)

  /** A template's content for one page; `identity` is the name/contact header. */
  datatype PageBody = PageBody(identity: Option<Basics>, styles: StyleTokens, layout: Layout)

  /** One A4 sheet. `body` is `None` when the template drew nothing because
      the identity fields are missing; the sheet and watermark still appear. */
  datatype Page = Page(index: nat, font: Option<string>, watermark: bool, body: Option<PageBody>)

  /** The eight real layouts. */
  function SkeletonOf(k: int): (sk: Skeleton)
    requires 1 <= k <= 8
    ensures sk.arrangement == LabelStrip <==> k == 6
    ensures sk.arrangement == SidebarFirst <==> k in {1, 5, 7, 8}
    ensures sk.palette == DarkPalette <==> k == 8
    ensures sk.palette != DarkPalette ==> sk.palette == DefaultPalette
    ensures sk.defaultTheme.font == MonospaceTheme.font <==> k == 6
    ensures sk.defaultTheme.color == DefaultTheme.color && sk.defaultTheme.fontSize == DefaultTheme.fontSize
  {
    if k == 1 then Skeleton(SidebarFirst, DefaultPalette, DefaultTheme)       // left info bar
    else if k == 2 then Skeleton(MainFirst, DefaultPalette, DefaultTheme)     // header band + grid
    else if k == 3 then Skeleton(MainFirst, DefaultPalette, DefaultTheme)     // centered header
    else if k == 4 then Skeleton(MainFirst, DefaultPalette, DefaultTheme)     // profile image + aside
    else if k == 5 then Skeleton(SidebarFirst, DefaultPalette, DefaultTheme)  // colored header band
    else if k == 6 then Skeleton(LabelStrip, DefaultPalette, MonospaceTheme)  // minimalist monospace
    else if k == 7 then Skeleton(SidebarFirst, DefaultPalette, DefaultTheme)  // dark header card
    else Skeleton(SidebarFirst, DarkPalette, DefaultTheme)                    // dark full-bleed left column
  }

  /** The component table of `DefaultResume`: ids 1–8 are the layouts, 9–16
      repeat 1–8, 17–20 repeat 1–4, and any other id falls back to layout 1. */
  function TemplateFor(id: int): (k: int)
    ensures 1 <= k <= 8
    ensures 1 <= id <= 20 ==> k == (id - 1) % 8 + 1
    ensures id < 1 || id > 20 ==> k == 1
  {
    var table := map[
      1 := 1, 2 := 2, 3 := 3, 4 := 4, 5 := 5, 6 := 6, 7 := 7, 8 := 8,
      9 := 1, 10 := 2, 11 := 3, 12 := 4, 13 := 5, 14 := 6, 15 := 7, 16 := 8,
      17 := 1, 18 := 2, 19 := 3, 20 := 4];
    if id in table then table[id] else 1
  }

  function LabelRows(page: seq<Section>, theme: Theme, pal: Palette): (rows: seq<LabelRow>)
    ensures |rows| == |page|
  {
    seq(|page|, i requires 0 <= i < |page| =>
      LabelRow(page[i].id, page[i].title, theme.color, RenderSection(page[i].(title := ""), theme, pal)))
  }

  /** A template's `renderPage` callback for page `index`. */
  function RenderPage(sk: Skeleton, basics: Option<Basics>, page: seq<Section>, index: nat, theme: Theme): (b: Option<PageBody>)
    ensures b.Some? <==> basics.Some?
    ensures b.Some? ==> b.value.identity == (if index == 0 then basics else None)
    ensures b.Some? ==> TierOf(b.value.styles) == Tier(ResolveTier(theme.fontSize))
    ensures b.Some? ==> b.value.styles == SmallTokens || b.value.styles == MediumTokens || b.value.styles == LargeTokens
  {
    if basics.None? then None
    else
      var layout :=
        if sk.arrangement == LabelStrip then Rows(LabelRows(page, theme, sk.palette))
        else
          var cols := GetPageColumns(page);
          Columns(sk.arrangement == SidebarFirst, RenderAll(cols.left, theme, sk.palette), RenderAll(cols.right, theme, sk.palette));
      Some(PageBody(if index == 0 then basics else None, GetThemeStyles(ResolveTier(theme.fontSize)), layout))
  }

  /** `MultiPageWrapper`: nothing without data or sections, otherwise one sheet
      per page of the split, in order, the watermark only on sheet 0 of a
      non-premium document and the identity header only on sheet 0. */
  function MultiPage(data: Option<ResumeData>, theme: Theme, isPremium: bool, sk: Skeleton): (r: Option<seq<Page>>)
    ensures r.None? <==> data.None? || data.value.sections.None?
    ensures r.Some? ==> |r.value| == |Paginate(data.value.sections.value)|
    ensures r.Some? ==> forall i :: 0 <= i < |r.value| ==>
      r.value[i].index == i && r.value[i].font == theme.font
      && r.value[i].watermark == (!isPremium && i == 0)
    ensures r.Some? ==> forall i :: 0 <= i < |r.value| ==>
      (r.value[i].body.Some? <==> data.value.basics.Some?)
      && (r.value[i].body.Some? ==> (r.value[i].body.value.identity.Some? <==> i == 0))
  {
    if data.None? || data.value.sections.None? then None
    else
      var pages := Paginate(data.value.sections.value);
      Some(seq(|pages|, i requires 0 <= i < |pages| =>
        Page(i, theme.font, !isPremium && i == 0, RenderPage(sk, data.value.basics, pages[i], i, theme))))
  }

  /** `DefaultResume`: select the layout (default id 1), apply that layout's
      default theme when none is given, and assemble the pages. */
  function DefaultResume(data: Option<ResumeData>, theme: Option<Theme>, template: Option<int>, isPremium: Option<bool>): (r: Option<seq<Page>>)
    ensures r.None? <==> data.None? || data.value.sections.None?
    ensures r.Some? ==> |r.value| == |Paginate(data.value.sections.value)|
    ensures r.Some? ==> forall i :: 0 <= i < |r.value| ==>
      r.value[i].watermark == (isPremium != Some(true) && i == 0)
      && r.value[i].font == (if theme.Some? then theme.value.font
                             else SkeletonOf(TemplateFor(template.GetOr(1))).defaultTheme.font)
  {
    var sk := SkeletonOf(TemplateFor(template.GetOr(1)));
    MultiPage(data, theme.GetOr(sk.defaultTheme), isPremium.GetOr(false), sk)
  }

  /** The sections routed onto one page's two column groups. */
  function Routed(page: seq<Section>): seq<Section> {
    GetPageColumns(page).left + GetPageColumns(page).right
  }

  /** The sections routed into column groups, page after page. */
  function RoutedPages(pages: seq<seq<Section>>): seq<seq<Section>> {
    seq(|pages|, k requires 0 <= k < |pages| => Routed(pages[k]))
  }

  /** Content is never dropped or duplicated: across all pages, the sections
      routed into the two column groups are exactly the document's non-break
      sections, each once. */
  lemma ContentPlacedOnce(s: seq<Section>)
    ensures multiset(Flatten(RoutedPages(Paginate(s)))) == multiset(Filter(s, IsContent))
  {
    var pages := Paginate(s);
    var routed := RoutedPages(pages);
    forall k | 0 <= k < |pages|
      ensures multiset(routed[k]) == multiset(pages[k])
    {
      var cols := GetPageColumns(pages[k]);
      assert routed[k] == cols.left + cols.right;
    }
    FlattenMultiset(routed, pages);
    PaginatePreservesContent(s);
  }

  /** In every two-column layout, sheet `i` shows the sidebar group and the
      main group of page `i` of the split, each rendered in page order. */
  lemma ColumnSheetsShowRoutedGroups(data: ResumeData, theme: Theme, isPremium: bool, sk: Skeleton, i: nat)
    requires sk.arrangement != LabelStrip
    requires data.basics.Some? && data.sections.Some?
    requires i < |Paginate(data.sections.value)|
    ensures var cols := GetPageColumns(Paginate(data.sections.value)[i]);
      MultiPage(Some(data), theme, isPremium, sk).value[i].body.value.layout
      == Columns(sk.arrangement == SidebarFirst, RenderAll(cols.left, theme, sk.palette), RenderAll(cols.right, theme, sk.palette))
  {
  }

  /** In Template6, sheet `i` shows one caption row per section of page `i`
      of the split, in page order. */
  lemma LabelStripSheetsShowRows(data: ResumeData, theme: Theme, isPremium: bool, sk: Skeleton, i: nat)
    requires sk.arrangement == LabelStrip
    requires data.basics.Some? && data.sections.Some?
    requires i < |Paginate(data.sections.value)|
    ensures MultiPage(Some(data), theme, isPremium, sk).value[i].body.value.layout
      == Rows(LabelRows(Paginate(data.sections.value)[i], theme, sk.palette))
  {
  }

  /** Every sheet of a document is set in the same token table, the one the
      resolved tier names: changing the tier re-renders all sheets alike. */
  lemma SheetsShareTokens(data: ResumeData, theme: Theme, isPremium: bool, sk: Skeleton)
    requires data.sections.Some?
    ensures var r := MultiPage(Some(data), theme, isPremium, sk).value;
      forall i :: 0 <= i < |r| && r[i].body.Some? ==>
        r[i].body.value.styles == GetThemeStyles(ResolveTier(theme.fontSize))
  {
  }

  /** Column membership is stable across layouts: two two-column skeletons
      with the same palette put the same blocks in the same groups on every
      sheet; they differ only in which group is read first. */
  lemma ArrangementsAgreeOnGroups(data: ResumeData, theme: Theme, isPremium: bool, sk1: Skeleton, sk2: Skeleton)
    requires sk1.arrangement != LabelStrip && sk2.arrangement != LabelStrip
    requires sk1.palette == sk2.palette
    requires data.basics.Some? && data.sections.Some?
    ensures var r1 := MultiPage(Some(data), theme, isPremium, sk1).value;
      var r2 := MultiPage(Some(data), theme, isPremium, sk2).value;
      |r1| == |r2|
      && forall i :: 0 <= i < |r1| ==>
        r1[i].body.value.layout.left == r2[i].body.value.layout.left
        && r1[i].body.value.layout.right == r2[i].body.value.layout.right
  {
  }

  /** Every alias renders exactly like the layout it names, and every unknown
      id renders exactly like Template1. */
  lemma AliasesRenderAlike(data: Option<ResumeData>, theme: Option<Theme>, id: int, isPremium: Option<bool>)
    ensures 1 <= id <= 20 ==>
      DefaultResume(data, theme, Some(id), isPremium) == DefaultResume(data, theme, Some((id - 1) % 8 + 1), isPremium)
    ensures (id < 1 || id > 20) ==>
      DefaultResume(data, theme, Some(id), isPremium) == DefaultResume(data, theme, Some(1), isPremium)
    ensures DefaultResume(data, theme, None, isPremium) == DefaultResume(data, theme, Some(1), isPremium)
  {
  }

  /** Without an explicit theme, Template6 and its alias 14 give every sheet
      the monospace font family; every other layout gives the default one. */
  lemma DefaultFontPerLayout(data: ResumeData, id: int, isPremium: Option<bool>)
    requires data.sections.Some?
    ensures var r := DefaultResume(Some(data), None, Some(id), isPremium).value;
      forall i :: 0 <= i < |r| ==>
        r[i].font == (if id == 6 || id == 14 then MonospaceTheme.font else DefaultTheme.font)
  {
  }

  /** Template6 ignores the column field: re-assigning columns leaves every
      sheet unchanged. */
  lemma LabelStripIgnoresColumns(basics: Option<Basics>, page: seq<Section>, page': seq<Section>, index: nat, theme: Theme)
    requires |page| == |page'|
    requires forall i :: 0 <= i < |page| ==> page'[i] == page[i].(column := page'[i].column)
    ensures RenderPage(SkeletonOf(6), basics, page, index, theme) == RenderPage(SkeletonOf(6), basics, page', index, theme)
  {
    assert LabelRows(page, theme, DefaultPalette) == LabelRows(page', theme, DefaultPalette) by {
      forall i | 0 <= i < |page|
        ensures LabelRows(page, theme, DefaultPalette)[i] == LabelRows(page', theme, DefaultPalette)[i]
      {
        assert page'[i].(title := "") == page[i].(title := "").(column := page'[i].column);
      }
    }
  }

  /** Template6 walks the page's sections in order: row `i` is section `i`,
      captioned with its title in the accent colour and rendered with an
      empty title. A hidden section keeps its caption row; only the block
      beside it is blank. */
  lemma LabelStripRows(basics: Basics, page: seq<Section>, index: nat, theme: Theme, i: nat)
    requires i < |page|
    ensures var b := RenderPage(SkeletonOf(6), Some(basics), page, index, theme).value;
      b.layout.Rows? && |b.layout.rows| == |page|
      && b.layout.rows[i].sectionId == page[i].id
      && b.layout.rows[i].caption == page[i].title
      && b.layout.rows[i].captionColor == theme.color
      && (b.layout.rows[i].block.Hidden? <==> IsBreak(page[i]) || !IsVisible(page[i]))
      && (b.layout.rows[i].block.Shown? ==> b.layout.rows[i].block.title == "")
  {
  }

  /** A two-page document: five sections with a break in third place, the
      second and fourth in the left column, large font, Template1. */
  lemma TwoPageScenario(s1: Section, s2: Section, s3: Section, s4: Section, s5: Section, basics: Basics, color: string, premium: bool)
    requires s1.kind != Break && s2.kind != Break && s4.kind != Break && s5.kind != Break && s3.kind == Break
    requires s2.column == Some(Left) && s4.column == Some(Left)
    requires s1.column != Some(Left) && s5.column != Some(Left)
    ensures var theme := Theme(color, None, Some("large"));
      var r := DefaultResume(Some(ResumeData(Some(basics), Some([s1, s2, s3, s4, s5]))), Some(theme), Some(1), Some(premium));
      r.Some? && |r.value| == 2
      && r.value[0].body.value.layout == Columns(true, [RenderSection(s2, theme, DefaultPalette)], [RenderSection(s1, theme, DefaultPalette)])
      && r.value[1].body.value.layout == Columns(true, [RenderSection(s4, theme, DefaultPalette)], [RenderSection(s5, theme, DefaultPalette)])
      && r.value[0].body.value.styles == LargeTokens && r.value[1].body.value.styles == LargeTokens
  {
    var theme := Theme(color, None, Some("large"));
    var data := Some(ResumeData(Some(basics), Some([s1, s2, s3, s4, s5])));
    assert TemplateFor(1) == 1;
    assert DefaultResume(data, Some(theme), Some(1), Some(premium)) == MultiPage(data, theme, premium, SkeletonOf(1));
    ScenarioSheets(s1, s2, s3, s4, s5, basics, theme, premium);
  }

  lemma ScenarioSheets(s1: Section, s2: Section, s3: Section, s4: Section, s5: Section, basics: Basics, theme: Theme, premium: bool)
    requires s1.kind != Break && s2.kind != Break && s4.kind != Break && s5.kind != Break && s3.kind == Break
    requires s2.column == Some(Left) && s4.column == Some(Left)
    requires s1.column != Some(Left) && s5.column != Some(Left)
    requires theme.fontSize == Some("large")
    ensures var r := MultiPage(Some(ResumeData(Some(basics), Some([s1, s2, s3, s4, s5]))), theme, premium, SkeletonOf(1));
      r.Some? && |r.value| == 2
      && r.value[0].body.value.layout == Columns(true, [RenderSection(s2, theme, DefaultPalette)], [RenderSection(s1, theme, DefaultPalette)])
      && r.value[1].body.value.layout == Columns(true, [RenderSection(s4, theme, DefaultPalette)], [RenderSection(s5, theme, DefaultPalette)])
      && r.value[0].body.value.styles == LargeTokens && r.value[1].body.value.styles == LargeTokens
  {
    ScenarioSplit(s1, s2, s3, s4, s5);
    var data := ResumeData(Some(basics), Some([s1, s2, s3, s4, s5]));
    ColumnSheetsShowRoutedGroups(data, theme, premium, SkeletonOf(1), 0);
    ColumnSheetsShowRoutedGroups(data, theme, premium, SkeletonOf(1), 1);
    SingletonRender(s1, theme);
    SingletonRender(s2, theme);
    SingletonRender(s4, theme);
    SingletonRender(s5, theme);
  }

  lemma SingletonRender(s: Section, theme: Theme)
    ensures RenderAll([s], theme, DefaultPalette) == [RenderSection(s, theme, DefaultPalette)]
  {
  }

  lemma ScenarioSplit(s1: Section, s2: Section, s3: Section, s4: Section, s5: Section)
    requires s1.kind != Break && s2.kind != Break && s4.kind != Break && s5.kind != Break && s3.kind == Break
    requires s2.column == Some(Left) && s4.column == Some(Left)
    requires s1.column != Some(Left) && s5.column != Some(Left)
    ensures Paginate([s1, s2, s3, s4, s5]) == [[s1, s2], [s4, s5]]
    ensures GetPageColumns([s1, s2]).left == [s2] && GetPageColumns([s1, s2]).right == [s1]
    ensures GetPageColumns([s4, s5]).left == [s4] && GetPageColumns([s4, s5]).right == [s5]
  {
    ScenarioPages([s1, s2], s3, [s4, s5]);
    assert [s1, s2] + [s3] + [s4, s5] == [s1, s2, s3, s4, s5];
    PairColumns(s1, s2);
    PairColumnsSwapped(s4, s5);
  }

  lemma ScenarioPages(a: seq<Section>, brk: Section, c: seq<Section>)
    requires IsBreak(brk) && c != []
    requires forall i :: 0 <= i < |a| ==> IsContent(a[i])
    requires forall i :: 0 <= i < |c| ==> IsContent(c[i])
    ensures Paginate(a + [brk] + c) == [a, c]
  {
    SegmentsOfBreakFree(a);
    SegmentsOfBreakFree(c);
    SegmentsAtBreak(a, brk, c);
  }

  lemma PairColumnsSwapped(a: Section, b: Section)
    requires a.column == Some(Left) && b.column != Some(Left)
    ensures GetPageColumns([a, b]).left == [a] && GetPageColumns([a, b]).right == [b]
  {
    FilterAppend([a], [b], IsLeft);
    FilterAppend([a], [b], IsMain);
    assert [a] + [b] == [a, b];
  }

  lemma PairColumns(a: Section, b: Section)
    requires a.column != Some(Left) && b.column == Some(Left)
    ensures GetPageColumns([a, b]).left == [b] && GetPageColumns([a, b]).right == [a]
  {
    FilterAppend([a], [b], IsLeft);
    FilterAppend([a], [b], IsMain);
    assert [a] + [b] == [a, b];
  }
}

=== FILE: theme_styles.dfy ===
/** The font-size tier table (`getThemeStyles`) and the tier defaulting
    (`theme.fontSize || 'medium'`). */
module ThemeStyles {
  import opened Options

  datatype StyleTokens = StyleTokens(
    name: string,
    job: string,
    contact: string,
    sectionTitle: string,
    itemTitle: string,
    itemSubtitle: string,
    body: string,
    date: string,
    tag: string,
    spacing: string,
    mb: string)

  const SmallTokens := StyleTokens(
    "text-3xl", "text-sm", "text-xs", "text-sm", "text-sm", "text-xs",
    "text-xs", "text-xs", "text-xs", "space-y-3", "mb-3")

  const LargeTokens := StyleTokens(
    "text-5xl", "text-xl", "text-base", "text-xl", "text-xl", "text-lg",
    "text-base", "text-sm", "text-sm", "space-y-5", "mb-5")

  const MediumTokens := StyleTokens(
    "text-4xl", "text-lg", "text-sm", "text-base", "text-base", "text-sm",
    "text-sm", "text-sm", "text-sm", "space-y-4", "mb-4")

  /** The tier a size string selects: "small" and "large" are themselves,
      every other string is the medium (default) tier. */
  function Tier(size: string): (t: string)
    ensures t == "small" || t == "medium" || t == "large"
    ensures size == "small" || size == "medium" || size == "large" ==> t == size
    ensures size != "small" && size != "large" ==> t == "medium"
  {
    if size == "small" || size == "large" then size else "medium"
  }

  /** Recovers the tier from a token set by its distinguishing `name` token. */
  function TierOf(tokens: StyleTokens): string {
    if tokens.name == "text-3xl" then "small"
    else if tokens.name == "text-5xl" then "large"
    else "medium"
  }

  /** The lookup table: a switch on the size with the medium table as default. */
  function GetThemeStyles(size: string): (r: StyleTokens)
    ensures TierOf(r) == Tier(size)
    ensures r == SmallTokens || r == MediumTokens || r == LargeTokens
  {
    match size
    case "small" => SmallTokens
    case "large" => LargeTokens
    case _ => MediumTokens
  }

  /** `theme.fontSize || 'medium'`: absent and empty both fall back to medium. */
  function ResolveTier(fontSize: Option<string>): (size: string)
    ensures fontSize.Some? && fontSize.value != "" ==> size == fontSize.value
    ensures !(fontSize.Some? && fontSize.value != "") ==> size == "medium"
  {
    if fontSize.Some? && fontSize.value != "" then fontSize.value else "medium"
  }

  /** The three tables are told apart by their name tokens, so the table is
      a faithful encoding of the tier: equal tables means equal tiers. */
  lemma TablesDetermineTier(a: string, b: string)
    requires GetThemeStyles(a) == GetThemeStyles(b)
    ensures Tier(a) == Tier(b)
  {
    assert TierOf(GetThemeStyles(a)) == TierOf(GetThemeStyles(b));
  }

  /** Every unrecognised tier gets exactly the medium table. */
  lemma UnknownTierIsMedium(size: string)
    requires size != "small" && size != "large"
    ensures GetThemeStyles(size) == MediumTokens
  {
  }

  /** A missing or empty font size gets exactly the medium table. */
  lemma MissingTierIsMedium(fontSize: Option<string>)
    requires fontSize.None? || fontSize == Some("")
    ensures GetThemeStyles(ResolveTier(fontSize)) == MediumTokens
  {
  }

  /** The heading scale grows with the tier. */
  lemma NameTokensPerTier()
    ensures GetThemeStyles("small").name == "text-3xl"
    ensures GetThemeStyles("medium").name == "text-4xl"
    ensures GetThemeStyles("large").name == "text-5xl"
  {
  }
}
